=== FILE: README.md ===
# HttpRequest transfer tasks in Dafny

This project models the core of the HttpRequest library, an iOS HTTP client. The library wraps a transport library, UIKit background tasks and an operation queue. The model covers the parts of it that carry logic of their own:

- **ConcurrentOperation** (`ConcurrentOperation` module). This is the base class of every transfer task. It has two flags, `executing` and `finished`, plus the inherited `cancelled`. A flag setter announces a change with a will-change/did-change pair only when the value really changes. `start` and `completeOperation` are the transitions. An operation carries its observable history (`log`). In that history the key-value notifications are interleaved with the events of the concrete task: background-task calls, request aborts and delegate callbacks. This makes counts and ordering statable.
- **Dictionary.append** (`DictionaryExtension` module). This is a right-biased merge in place, and a nil argument changes nothing. The module gives it as a function on `map` and as the source's per-entry loop. The loop is proved equal to the function.
- **HttpRequest** (`HttpRequest` module). The shared instance becomes an explicit `Config` holding the authorization, agent and referer header maps. Its setters replace one map each, and the last write wins. `buildRequestHeader` layers the maps, and `request` puts the explicit headers on top. The encoding is URL for GET and JSON for every other method.
- **DownloadTask** (`Download` module, properties in `DownloadProperties`). This is a state machine over an abstract disk (`FileSystem.Disk`). The download is written to a staging file in the download folder. On success it is moved over the destination. The task holds an optional delegate, a request handle and a background token (`NotBegun`, `Valid`, `Invalid`).
- **UploadTask** (`Upload` module, properties in `UploadProperties`). It has a failable and a memberwise initialiser. The response dispatches exactly one delegate callback, which the delegate receives when it implements that optional method. `cancel` clears the delegate.

Everything is a pure function over immutable records: a transition takes a task, and for downloads also the disk, and returns the new ones. Inputs from outside become parameters:

- the transport's response error is an `Option<int>` error code;
- the body the transport writes to the staging file is a `Content` value (`Download.Receive`);
- the download folder the download manager reports is an `Option<Path>`;
- file-manager failures come from the disk's `locked` paths. The file manager refuses to remove or move a locked path, and it also refuses to remove or move a missing file or to move onto an existing one. The transport's write of the body is not subject to this (see "## Left out").

The source traps on a force-unwrapped nil in three places. Each trap becomes a precondition of the member concerned:

- the staging path when there is no download folder;
- `lastPathComponent!`;
- the background identifier before `start`.

The model keeps several behaviours of the code on purpose:

- A download's `start` does not return when the operation was already cancelled. It still takes a background token and issues the request.
- An upload's `start` does the same: a cancelled upload still takes a background token and issues the upload. Since its response handler never ends the token, the token is held until it expires (`UploadProperties.CancelledUploadStillUploads`).
- The download completion calls `endBackgroundTask` unconditionally. After an expiry it therefore calls it a second time, now with the invalid identifier that the expiry handler left behind (`DownloadProperties.ExpiryThenCompletionEndsInvalid`).
- The download completion does not clear the request handle.
- The upload's request handle is never stored, so `cancel` cannot abort anything.
- The upload's response handler never completes the operation and never ends the background task.

### Where the code and its own documentation differ

The model follows the code in each case:

- **Staging path vs destination.** The documentation of `temporaryPathUrl` (`DownloadTask.swift:68-69`) calls it a temporary path that is copied over to the destination, so it is meant to be a different file. The code does not ensure this. When the destination lies directly in the download folder, the two coincide. The finished download is then deleted as the "existing destination", the move fails, and the delegate hears a failure (`DownloadProperties.DestinationInDownloadFolderIsLost`).
- **Cancelled start.** The base class's documentation (`ConcurrentOperation.swift:17-24`) asks subclasses to honour cancellation, and its own `start` (`ConcurrentOperation.swift:67-73`) returns early for a cancelled operation. The download and upload overrides call it and carry on (see Findings).
- **Completion cleanup.** The class documentation (`DownloadTask.swift:43`) says the task is removed from the background task when the download has failed or completed. The completion does end the background task, but unconditionally, so after an expiry it calls `endBackgroundTask` again with the invalid identifier. It also leaves the request handle set.
- **Locked stale staging file.** The same class comment promises the background task ends when the download fails or completes. When a stale staging file exists but cannot be removed, the empty `catch` (`DownloadTask.swift:109-123`) skips the request too. The task then stays executing, holds its background token until expiry, and never reports anything (`DownloadProperties.LockedStaleStagingHangs`).

## Model

| member | source | states |
|---|---|---|
| ConcurrentOperation.New | HttpRequest/ConcurrentOperation.swift:31-45 | a new operation is neither executing, finished nor cancelled, and has announced nothing |
| ConcurrentOperation.IsAsynchronous | HttpRequest/ConcurrentOperation.swift:27-29 | the operation always reports itself asynchronous |
| ConcurrentOperation.Set | HttpRequest/ConcurrentOperation.swift:36-56 | setting a flag to its current value changes nothing and announces nothing; setting a new value stores it, leaves the other flag alone, and appends exactly one will-change then did-change for that key |
| ConcurrentOperation.CompleteOperation | HttpRequest/ConcurrentOperation.swift:62-65 | afterwards not executing and finished; only notifications are added; the executing change is announced first and the finished change last, each only if the flag changed |
| ConcurrentOperation.Start | HttpRequest/ConcurrentOperation.swift:67-73 | a cancelled operation becomes finished and only finished is announced, executing untouched; otherwise it becomes executing and only executing is announced, finished untouched |
| ConcurrentOperation.CompleteOperationIdempotent | HttpRequest/ConcurrentOperation.swift:37-65 | a second `completeOperation` leaves state and history exactly as the first left them |
| ConcurrentOperation.FinishedIsFinal | HttpRequest/ConcurrentOperation.swift:62-72 | no transition of the base class takes a finished operation back to unfinished |
| ConcurrentOperation.NewIsConsistent | HttpRequest/ConcurrentOperation.swift:31-45 | a new operation's flags agree with its (empty) history |
| ConcurrentOperation.SetKeepsConsistent | HttpRequest/ConcurrentOperation.swift:36-56 | a setter keeps every will-change directly followed by its did-change, and each flag true exactly when an odd number of its changes has been announced |
| ConcurrentOperation.TransitionsKeepConsistent | HttpRequest/ConcurrentOperation.swift:62-73 | `start`, `completeOperation` and cancellation keep that agreement between flags and announcements |
| ConcurrentOperation.SelectTransitions | HttpRequest/ConcurrentOperation.swift:62-73 | `start` and `completeOperation` add no task events to the history, only notifications |
| DictionaryExtension.Append | HttpRequest/DictionaryExtension.swift:13-20 | nil leaves the dictionary unchanged; otherwise the keys are the union, every key of the argument maps to the argument's value, and other keys keep their values |
| DictionaryExtension.AppendEach | HttpRequest/DictionaryExtension.swift:17-19 | the per-entry update loop computes exactly the right-biased merge |
| DictionaryExtension.AppendTwice | HttpRequest/DictionaryExtension.swift:17-19 | appending the same dictionary twice equals appending it once |
| DictionaryExtension.AppendEmpty | HttpRequest/DictionaryExtension.swift:17-19 | appending an empty dictionary is the identity |
| DictionaryExtension.AppendAssociative | HttpRequest/DictionaryExtension.swift:17-19 | appending b then c equals appending b already overwritten by c |
| HttpRequest.SharedInstance | HttpRequest/HttpRequest.swift:23-25 | all three stored header maps start empty |
| HttpRequest.SetAuthorizationHeader | HttpRequest/HttpRequest.swift:41-43 | replaces the authorization headers wholesale and leaves agent and referer headers untouched |
| HttpRequest.SetAgentHeader | HttpRequest/HttpRequest.swift:48-50 | replaces the agent headers wholesale and leaves the other two maps untouched |
| HttpRequest.SetRefererHeader | HttpRequest/HttpRequest.swift:55-57 | replaces the referer headers wholesale and leaves the other two maps untouched |
| HttpRequest.LastWriteWins | HttpRequest/HttpRequest.swift:41-57 | a second call of a setter erases the first; setters of different maps commute |
| HttpRequest.BuildRequestHeader | HttpRequest/HttpRequest.swift:81-92 | authenticated: keys of all three maps, referer beats agent beats authorization; otherwise keys of agent and referer only, referer beating agent |
| HttpRequest.AuthorizationOnlyWhenRequired | HttpRequest/HttpRequest.swift:83-89 | a key present only among the authorization headers appears in the built headers exactly when authorization is required |
| HttpRequest.EncodingFor | HttpRequest/HttpRequest.swift:69 | URL encoding exactly for GET, JSON for every other method |
| HttpRequest.MakeRequest | HttpRequest/HttpRequest.swift:68-73 | method, URL and body are passed through; URL encoding iff GET; nil explicit headers give exactly the built headers; explicit headers win on collision and other built headers survive |
| HttpRequest.ExplicitHeadersWin | HttpRequest/HttpRequest.swift:70-71 | agent {A:1}, referer {R:2} and explicit {A:3} give exactly {A:3, R:2} |
| FileSystem.Remove | HttpRequest/DownloadTask.swift:111 | removal succeeds exactly for a present, unlocked file, deletes only it, and otherwise throws an error naming the path |
| FileSystem.Move | HttpRequest/DownloadTask.swift:143 | a move succeeds exactly when the source exists, the destination does not and neither is locked; the destination then holds the source's content, the source is gone, nothing else changes |
| Download.Init | HttpRequest/DownloadTask.swift:84-94 | the staging path exists exactly when the download folder does and is the folder plus the destination's last component; the delegate is kept only when the folder exists; not started, no request |
| Download.Start | HttpRequest/DownloadTask.swift:100-124 | token becomes Valid; the base start runs (cancelled: finished, else executing); the request is issued exactly when no stale staging file exists or it could be removed, and then the staging file is gone; otherwise disk and request are unchanged |
| Download.Receive | HttpRequest/DownloadTask.swift:114-115 | the transport writes the body at the request's target, the staging path, and nowhere else |
| Download.EndBackgroundTask | HttpRequest/DownloadTask.swift:126-129 | the token is Invalid afterwards, the end is recorded with the identifier it was called with, and nothing else changes |
| Download.OnExpiration | HttpRequest/DownloadTask.swift:103-108 | the token is Invalid afterwards; a Valid token is ended once and recorded with the flags kept, an Invalid one leaves the task unchanged; no other field changes |
| Download.OnProgress | HttpRequest/DownloadTask.swift:116-118 | a progress report with the running totals reaches the history only when a delegate is set; flags and every other field are kept |
| Download.MoveIntoPlace | HttpRequest/DownloadTask.swift:140-143 | the move succeeds exactly when staging differs from the destination, staging exists and neither is locked; then the destination holds the staged content and staging is gone; on failure the disk is either untouched (the removal of the old destination threw) or has lost only the old destination (the move threw) |
| Download.Complete | HttpRequest/DownloadTask.swift:134-157 | token Invalid, not executing, finished, cancelled kept, every other field kept; the token end is recorded first and no callback occurs before the last entry; a transport error removes the staging file if removable and otherwise leaves the disk untouched; without one, the disk outcome of the move, a failed move leaving the disk untouched or without only the old destination |
| Download.Cancel | HttpRequest/DownloadTask.swift:162-171 | the delegate and the request are cleared and the operation cancelled; an existing request is aborted and recorded; the staging file is removed unless locked, a locked one leaves the disk untouched, and nothing else on disk changes |
| DownloadProperties.StartDeliversNoCallback | HttpRequest/DownloadTask.swift:100-124 | starting a download calls no delegate method |
| DownloadProperties.CompleteMovesIntoPlace | HttpRequest/DownloadTask.swift:139-144 | with no error and a possible move: exactly one completed callback carrying the destination, no failure; the destination holds the staged content and staging is gone |
| DownloadProperties.CompleteReportsFailedMove | HttpRequest/DownloadTask.swift:145-147 | with no error and a failing removal or move: exactly one failed callback with the file manager's error, no completion; a staging file distinct from the destination is left as it was |
| DownloadProperties.CompleteReportsTransportError | HttpRequest/DownloadTask.swift:151-156 | with a transport error: exactly one failed callback with that error; the staging file is removed unless the system refuses |
| DownloadProperties.CompleteDeliversOneCallback | HttpRequest/DownloadTask.swift:134-157 | every completion delivers exactly one callback when a delegate is set and none otherwise |
| DownloadProperties.CancelSilencesDelegate | HttpRequest/DownloadTask.swift:162-170 | after cancel no callback is delivered: not by cancelling, not by progress, not by any later completion |
| DownloadProperties.ExpiryThenCompletionEndsInvalid | HttpRequest/DownloadTask.swift:103-135 | after an expiry the completion calls `endBackgroundTask` again: the history shows an end with the valid identifier directly followed by one with the invalid identifier |
| DownloadProperties.SuccessfulDownload | HttpRequest/DownloadTask.swift:100-148 | start, transport write, completion: the destination holds exactly the body, no staging file remains, nothing else changed, one completed callback, finished and token Invalid |
| DownloadProperties.DestinationInDownloadFolderIsLost | HttpRequest/DownloadTask.swift:90-143 | a destination directly inside the download folder is its own staging path; a full run then leaves no file there and reports a missing-file failure |
| DownloadProperties.LockedStaleStagingHangs | HttpRequest/DownloadTask.swift:100-123 | when a stale staging file is locked, a fresh task's start issues no request, yet is executing, unfinished and holds a Valid token, with the disk unchanged and no callback |
| DownloadProperties.TransitionsKeepFlagsAnnounced | HttpRequest/DownloadTask.swift:100-124 | start and progress keep the operation's flags in agreement with its announced changes |
| DownloadProperties.CancelAndExpiryKeepFlagsAnnounced | HttpRequest/DownloadTask.swift:103-170 | cancel and expiry keep the operation's flags in agreement with its announced changes |
| DownloadProperties.CompleteKeepsFlagsAnnounced | HttpRequest/DownloadTask.swift:134-136 | the completion keeps the operation's flags in agreement with its announced changes |
| DownloadProperties.CancelledDownloadStillLands | HttpRequest/DownloadTask.swift:100-114 | a download cancelled before start still issues its request and takes a token when started, and its file still lands at the destination |
| Download.StartUnlessCancelled | HttpRequest/DownloadTask.swift:100-101 | corrected start: the cancelled flag and the history so far are kept; a cancelled task only becomes finished, with only flag announcements added and token, request, delegate and disk untouched; otherwise it is the modelled start |
| DownloadProperties.CancelledDownloadStaysCancelled | HttpRequest/DownloadTask.swift:100-101 | with the corrected start, a download cancelled before it starts issues no request, takes no token, delivers no callback and leaves the disk as the cancellation did |
| Upload.Init | HttpRequest/UploadTask.swift:95-101 | stores ID, file URL, destination URL and delegate; not started, no request |
| Upload.FromUploadable | HttpRequest/UploadTask.swift:82-92 | no task exactly when the file URL or the destination URL is missing; otherwise both URLs, the ID and the delegate come from the arguments |
| Upload.Start | HttpRequest/UploadTask.swift:105-113 | token Valid; the base start runs (cancelled: finished, else executing); the background task begins and then the upload of the file to the destination is issued, even for a cancelled task; the request handle is left as it was |
| Upload.OnProgress | HttpRequest/UploadTask.swift:113-114 | a progress report reaches the history only when a delegate is set; flags and every other field are kept |
| Upload.OnResponse | HttpRequest/UploadTask.swift:115-121 | flags, token and every field are untouched; with a delegate, no error appends one completion with a nil result and an error appends one failure with it |
| Upload.EndBackgroundTask | HttpRequest/UploadTask.swift:125-128 | the token is Invalid afterwards, the end is recorded with the identifier it was called with, and nothing else changes |
| Upload.OnExpiration | HttpRequest/UploadTask.swift:107-111 | the token is Invalid afterwards; only a Valid token is ended and recorded, with the flags kept; no other field changes |
| Upload.Cancel | HttpRequest/UploadTask.swift:131-136 | the delegate and the request are cleared and the operation cancelled; only an existing request is aborted |
| UploadProperties.ResponseDeliversOneCallback | HttpRequest/UploadTask.swift:115-121 | a response yields exactly one callback when a delegate is set: completion with nil result without error, failure with the error otherwise, never both |
| UploadProperties.StartDeliversNoCallback | HttpRequest/UploadTask.swift:105-113 | starting an upload calls no delegate method |
| UploadProperties.CancelSilencesDelegate | HttpRequest/UploadTask.swift:131-136 | after cancel neither progress nor response reaches the delegate, and cancelling itself calls none |
| UploadProperties.RequestNeverStored | HttpRequest/UploadTask.swift:113 | no transition ever stores a request handle |
| UploadProperties.CancelNeverAbortsUpload | HttpRequest/UploadTask.swift:113-134 | cancelling a started upload aborts no request |
| Upload.StartKeepingRequest | HttpRequest/UploadTask.swift:113 | corrected start: keeps the upload's request handle, otherwise as the modelled start |
| UploadProperties.CancelAbortsKeptRequest | HttpRequest/UploadTask.swift:131-135 | with the handle kept, cancelling a started upload aborts its request and drops the handle |
| UploadProperties.CancelledUploadStillUploads | HttpRequest/UploadTask.swift:105-121 | an upload cancelled before it starts is finished, yet takes a background token, issues the upload, and still holds the token after the response |
| Upload.StartUnlessCancelled | HttpRequest/UploadTask.swift:105-106 | corrected start: the cancelled flag and the history so far are kept; a cancelled task only becomes finished, with every field kept and only flag announcements added; otherwise it is the modelled start |
| UploadProperties.CancelledUploadStaysIdle | HttpRequest/UploadTask.swift:105-106 | with the corrected start, an upload cancelled before it starts takes no token, issues no upload and delivers no callback |
| UploadProperties.ResponseLeavesOperationRunning | HttpRequest/UploadTask.swift:115-121 | after start and response, the upload is still executing, not finished, and still holds its background token |
| Upload.OnResponseCompleting | HttpRequest/UploadTask.swift:115-121 | corrected response: the token is ended first, the operation completes with cancelled kept, and no other field changes |
| UploadProperties.CompletingResponseFinishes | HttpRequest/UploadTask.swift:115-121 | the corrected response finishes the operation, ends the token before any callback, and delivers exactly one callback |
| UploadProperties.TransitionsKeepFlagsAnnounced | HttpRequest/UploadTask.swift:105-128 | start, progress and expiry keep the flags in agreement with their announced changes |
| UploadProperties.ResponseAndCancelKeepFlagsAnnounced | HttpRequest/UploadTask.swift:115-136 | responses and cancel keep the flags in agreement with their announced changes |

## Left out

- The transport library: issuing requests, session set-up and delivery of responses and progress. Responses and written bodies are inputs of the model, and a request is a record of what was asked.
- The progress fraction (`DownloadTask.swift:116-118`, `UploadTask.swift:114`). It is floating point, and the download case has an unguarded division by zero. The model passes on the two byte counts instead of their ratio.
- The `UIApplication` background-task API. It is a Valid/Invalid token, and ending it is a recorded event.
- The trap when the download folder is missing. `Download.Start`, `Download.Complete` and `Download.Cancel` require a staging path, because the source force-unwraps it and traps without one.
- The trap on `lastPathComponent!`. `Download.Init` requires a non-empty destination when a folder exists, because the source force-unwraps that component.
- The trap on the background identifier before `start`. `Download.EndBackgroundTask`, `Download.OnExpiration`, `Download.Complete`, `Upload.EndBackgroundTask` and `Upload.OnExpiration` require a begun token, because the source force-unwraps it.
- The inherited `cancel` of Foundation's `Operation`. It is modelled as setting `cancelled` only; its own notifications and queue readiness are not modelled.
- Concurrency, thread safety and weak references. Transitions are atomic, and the weak delegate is an optional value.
- Logging.
- `DownloadManager.swift` (the queue of at most five operations, `cancelAllOperations`, notification logging, creating the temporary folder). The download folder is a parameter instead.
- `FileFetcher.swift` (the cache fetcher) and the example app's view controller.
- Upload.OnResponse: every delegate is taken to implement all three optional methods of `UploadTaskDelegate` (`UploadTask.swift:41-55`); an event records that the callback is dispatched, and a delegate lacking the method receives nothing.
- Header keys (`HttpHeaders`, `HttpRequest.swift:13`) are compared code point by code point, whereas Swift `String` keys compare equal under Unicode canonical equivalence; two canonically equivalent keys that collide in `append` and `buildRequestHeader` stay distinct in the model.
- Download.Receive: the transport's write of the body always succeeds, even at a locked path, because a failed write reaches the task only as the transport error that `Download.Complete` takes as its `error` parameter.

## Findings

| source | as written | input that shows it | evidently intended | confidence | as-written member | corrected member |
|---|---|---|---|---|---|---|
| HttpRequest/DownloadTask.swift:100-101 | `start` calls the base `start` and goes on even when the task is already cancelled | a task cancelled before the queue starts it (as `cancelAllOperations` does): it takes a background token, issues the download, and the file lands at the destination | return after the base class marks a cancelled task finished, as the base class's documentation asks | high, not executed | DownloadProperties.CancelledDownloadStillLands | Download.StartUnlessCancelled |
| HttpRequest/UploadTask.swift:105-106 | `start` calls the base `start` and goes on even when the task is already cancelled | an upload cancelled before the queue starts it: it takes a background token and issues the upload, and because the response handler never ends the token, it is held until it expires | return after the base class marks a cancelled task finished, as the base class's documentation asks | high, not executed | UploadProperties.CancelledUploadStillUploads | Upload.StartUnlessCancelled |
| HttpRequest/UploadTask.swift:115-121 | the response handler only calls the delegate | any started upload that receives a response: still executing, never finished, background token still held | end the background task and call `completeOperation`, as the base class's documentation requires of subclasses | high, not executed | UploadProperties.ResponseLeavesOperationRunning | Upload.OnResponseCompleting |
| HttpRequest/UploadTask.swift:113 | the request returned by the upload call is discarded, so `request` stays nil | cancelling any started upload: `request?.cancel()` does nothing and the upload goes on | store the returned request in `request`, which `cancel` then aborts | high, not executed | UploadProperties.CancelNeverAbortsUpload | Upload.StartKeepingRequest |

=== FILE: concurrent_operation.dfy ===
/** The base class of both transfer tasks: an `Operation` whose `isExecuting`
    and `isFinished` flags announce every change to key-value observers. */
module ConcurrentOperation {

  /** The two observed keys. */
  datatype Key = IsExecuting | IsFinished

  /** One entry of an operation's observable history: a will-change or
      did-change notification for a key, or an event of the concrete task
      built on top (a delegate callback, a background-token call, ...). */
  datatype Entry<E> = WillChange(key: Key) | DidChange(key: Key) | Event(event: E)

  /** The flags `_executing` and `_finished`, the inherited `isCancelled`,
      and everything observers have seen so far. */
  datatype Operation<E> = Operation(executing: bool, finished: bool, cancelled: bool, log: seq<Entry<E>>)

  /** A freshly constructed operation. */
  function New<E>(): (o: Operation<E>)
    ensures !o.executing && !o.finished && !o.cancelled
    ensures o.log == []
  {
    Operation(false, false, false, [])
  }

  /** `isAsynchronous`: a host queue must never wait for `start` to finish. */
  function IsAsynchronous<E>(o: Operation<E>): (r: bool)
    ensures r
  {
    true
  }

  function Flag<E>(o: Operation<E>, k: Key): bool
  {
    match k
    case IsExecuting => o.executing
    case IsFinished => o.finished
  }

  /** The setters of `isExecuting` and `isFinished`: the stored flag and the
      will/did pair around it change only when the new value differs. */
  function Set<E>(o: Operation<E>, k: Key, v: bool): (r: Operation<E>)
    ensures Flag(r, k) == v
    ensures forall other :: other != k ==> Flag(r, other) == Flag(o, other)
    ensures r.cancelled == o.cancelled
    ensures Flag(o, k) == v ==> r == o
    ensures Flag(o, k) != v ==> r.log == o.log + [WillChange(k), DidChange(k)]
  {
    if Flag(o, k) == v then o
    else
      var log := o.log + [WillChange(k), DidChange(k)];
      match k
      case IsExecuting => o.(executing := v, log := log)
      case IsFinished => o.(finished := v, log := log)
  }

  /** `completeOperation`: stop executing, then finish. */
  function CompleteOperation<E>(o: Operation<E>): (r: Operation<E>)
    ensures !r.executing && r.finished && r.cancelled == o.cancelled
    ensures Extends(o, r)
    ensures |r.log| == |o.log| + (if o.executing then 2 else 0) + (if o.finished then 0 else 2)
    ensures forall i :: |o.log| <= i < |r.log| ==> !r.log[i].Event?
    ensures o.executing ==> r.log[|o.log|] == WillChange(IsExecuting) && r.log[|o.log| + 1] == DidChange(IsExecuting)
    ensures !o.finished ==> r.log[|r.log| - 2] == WillChange(IsFinished) && r.log[|r.log| - 1] == DidChange(IsFinished)
  {
    var stopped := Set(o, IsExecuting, false);
    var stop := if o.executing then [WillChange(IsExecuting), DidChange(IsExecuting)] else [];
    var finish := if o.finished then [] else [WillChange(IsFinished), DidChange(IsFinished)];
    assert stopped.log == o.log + stop;
    var r := Set(stopped, IsFinished, true);
    assert r.log == o.log + stop + finish;
    r
  }

  /** `start`: a cancelled operation goes straight to finished without ever
      executing; any other starts executing. */
  function Start<E>(o: Operation<E>): (r: Operation<E>)
    ensures r.cancelled == o.cancelled
    ensures o.cancelled ==> r.finished && r.executing == o.executing
    ensures o.cancelled ==> forall i :: |o.log| <= i < |r.log| ==> !r.log[i].Event? && r.log[i].key == IsFinished
    ensures !o.cancelled ==> r.executing && r.finished == o.finished
    ensures !o.cancelled ==> forall i :: |o.log| <= i < |r.log| ==> !r.log[i].Event? && r.log[i].key == IsExecuting
    ensures Extends(o, r)
  {
    if o.cancelled then Set(o, IsFinished, true) else Set(o, IsExecuting, true)
  }

  /** The inherited `cancel`: only the cancelled flag is modelled. */
  function Cancel<E>(o: Operation<E>): (r: Operation<E>)
    ensures r.cancelled
    ensures r.executing == o.executing && r.finished == o.finished && r.log == o.log
  {
    o.(cancelled := true)
  }

  /** Record an event of the concrete task. */
  function Emit<E>(o: Operation<E>, e: E): (r: Operation<E>)
    ensures r.executing == o.executing && r.finished == o.finished && r.cancelled == o.cancelled
    ensures r.log == o.log + [Event(e)]
  {
    o.(log := o.log + [Event(e)])
  }

  /** `r` is `o` later on: everything observed in `o` is still a prefix. */
  ghost predicate Extends<E>(o: Operation<E>, r: Operation<E>)
  {
    |o.log| <= |r.log| && r.log[..|o.log|] == o.log
  }

  /** The task events of a history that satisfy `keep`, in order. */
  function Select<E>(log: seq<Entry<E>>, keep: E -> bool): seq<E>
  {
    if log == [] then []
    else
      var last := log[|log| - 1];
      Select(log[..|log| - 1], keep) + (if last.Event? && keep(last.event) then [last.event] else [])
  }

  /** Selection distributes over concatenation of histories. */
  lemma {:induction false} SelectAppend<E>(a: seq<Entry<E>>, b: seq<Entry<E>>, keep: E -> bool)
    ensures Select(a + b, keep) == Select(a, keep) + Select(b, keep)
    decreases |b|
  {
    if b == [] {
      assert a + b == a;
    } else {
      var b' := b[..|b| - 1];
      assert (a + b)[..|a + b| - 1] == a + b';
      assert (a + b)[|a + b| - 1] == b[|b| - 1];
      SelectAppend(a, b', keep);
    }
  }

  /** A history that holds only notifications selects no events. */
  lemma {:induction false} SelectNotifications<E>(log: seq<Entry<E>>, keep: E -> bool)
    requires forall i :: 0 <= i < |log| ==> !log[i].Event?
    ensures Select(log, keep) == []
    decreases |log|
  {
    if log != [] {
      SelectNotifications(log[..|log| - 1], keep);
    }
  }

  /** Events selected after `o` became `r`. */
  lemma SelectExtends<E>(o: Operation<E>, r: Operation<E>, keep: E -> bool)
    requires Extends(o, r)
    ensures Select(r.log, keep) == Select(o.log, keep) + Select(r.log[|o.log|..], keep)
  {
    assert r.log == o.log + r.log[|o.log|..];
    SelectAppend(o.log, r.log[|o.log|..], keep);
  }

  /** Recording an event selects it exactly when `keep` accepts it. */
  lemma SelectEmit<E>(o: Operation<E>, e: E, keep: E -> bool)
    ensures Select(Emit(o, e).log, keep) == Select(o.log, keep) + (if keep(e) then [e] else [])
  {
    var log := o.log + [Event(e)];
    assert log[..|log| - 1] == o.log;
  }

  /** `start` and `completeOperation` only notify: they select no events. */
  lemma SelectTransitions<E>(o: Operation<E>, keep: E -> bool)
    ensures Select(Start(o).log, keep) == Select(o.log, keep)
    ensures Select(CompleteOperation(o).log, keep) == Select(o.log, keep)
  {
    var s := Start(o);
    SelectExtends(o, s, keep);
    SelectNotifications(s.log[|o.log|..], keep);
    var c := CompleteOperation(o);
    SelectExtends(o, c, keep);
    SelectNotifications(c.log[|o.log|..], keep);
  }

  /** The number of did-change notifications for `k` in a history. */
  function Changes<E>(log: seq<Entry<E>>, k: Key): nat
  {
    if log == [] then 0
    else Changes(log[..|log| - 1], k) + (if log[|log| - 1].DidChange? && log[|log| - 1].key == k then 1 else 0)
  }

  /** Every will-change is immediately followed by the did-change of the
      same key, and every did-change immediately preceded by it. */
  ghost predicate Bracketed<E>(log: seq<Entry<E>>)
  {
    && (forall i :: 0 <= i < |log| && log[i].WillChange? ==> i + 1 < |log| && log[i + 1] == DidChange(log[i].key))
    && (forall i :: 0 <= i < |log| && log[i].DidChange? ==> 0 < i && log[i - 1] == WillChange(log[i].key))
  }

  /** Observers can reconstruct each flag from the history: notifications
      come in will/did pairs, and a flag is set exactly when an odd number
      of changes of it have been announced (both start out false). */
  ghost predicate Consistent<E>(o: Operation<E>)
  {
    && Bracketed(o.log)
    && (o.executing <==> Changes(o.log, IsExecuting) % 2 == 1)
    && (o.finished <==> Changes(o.log, IsFinished) % 2 == 1)
  }

  /** Appending one entry that is not a will-change keeps a bracketed history
      bracketed as long as a did-change follows its will-change. */
  lemma AnnounceKeepsBracketed<E>(log: seq<Entry<E>>, k: Key)
    requires Bracketed(log)
    ensures Bracketed(log + [WillChange(k), DidChange(k)])
  {
    var log' := log + [WillChange(k), DidChange(k)];
    forall i | 0 <= i < |log'| && log'[i].WillChange?
      ensures i + 1 < |log'| && log'[i + 1] == DidChange(log'[i].key)
    {
      if i < |log| {
        assert log[i].WillChange?;
      }
    }
    forall i | 0 <= i < |log'| && log'[i].DidChange?
      ensures 0 < i && log'[i - 1] == WillChange(log'[i].key)
    {
      if i < |log| {
        assert log[i].DidChange?;
      }
    }
  }

  /** An announced change of `k` adds one to the changes counted for `k`
      and none to the other key's. */
  lemma ChangesAfterAnnounce<E>(log: seq<Entry<E>>, k: Key, j: Key)
    ensures Changes(log + [WillChange(k), DidChange(k)], j) == Changes(log, j) + (if j == k then 1 else 0)
  {
    var log' := log + [WillChange(k), DidChange(k)];
    assert log'[..|log'| - 1] == log + [WillChange(k)];
    assert (log + [WillChange(k)])[..|log|] == log;
  }

  /** A flag setter keeps the history consistent with the flags. */
  lemma SetKeepsConsistent<E>(o: Operation<E>, k: Key, v: bool)
    requires Consistent(o)
    ensures Consistent(Set(o, k, v))
  {
    if Flag(o, k) != v {
      AnnounceKeepsBracketed(o.log, k);
      ChangesAfterAnnounce(o.log, k, IsExecuting);
      ChangesAfterAnnounce(o.log, k, IsFinished);
    }
  }

  /** Recording a task event keeps the history consistent with the flags. */
  lemma {:induction false} EmitKeepsConsistent<E>(o: Operation<E>, e: E)
    requires Consistent(o)
    ensures Consistent(Emit(o, e))
  {
    var log' := o.log + [Event(e)];
    assert log'[..|log'| - 1] == o.log;
    forall i | 0 <= i < |log'| && log'[i].WillChange?
      ensures i + 1 < |log'| && log'[i + 1] == DidChange(log'[i].key)
    {
      assert i < |o.log| && o.log[i].WillChange?;
    }
    forall i | 0 <= i < |log'| && log'[i].DidChange?
      ensures 0 < i && log'[i - 1] == WillChange(log'[i].key)
    {
      assert i < |o.log| && o.log[i].DidChange?;
    }
  }

  /** A new operation is consistent. */
  lemma NewIsConsistent<E>()
    ensures Consistent(New<E>())
  {
  }

  /** `start`, `completeOperation` and `cancel` keep the history consistent. */
  lemma TransitionsKeepConsistent<E>(o: Operation<E>)
    requires Consistent(o)
    ensures Consistent(Start(o))
    ensures Consistent(CompleteOperation(o))
    ensures Consistent(Cancel(o))
  {
    SetKeepsConsistent(o, IsFinished, true);
    SetKeepsConsistent(o, IsExecuting, true);
    SetKeepsConsistent(o, IsExecuting, false);
    SetKeepsConsistent(Set(o, IsExecuting, false), IsFinished, true);
  }

  /** `completeOperation` is idempotent: a second call changes nothing and
      notifies nobody. */
  lemma CompleteOperationIdempotent<E>(o: Operation<E>)
    ensures CompleteOperation(CompleteOperation(o)) == CompleteOperation(o)
  {
  }

  /** Once finished, an operation stays finished through `start`,
      `completeOperation`, `cancel` and task events. */
  lemma FinishedIsFinal<E>(o: Operation<E>, e: E)
    requires o.finished
    ensures Start(o).finished && CompleteOperation(o).finished && Cancel(o).finished && Emit(o, e).finished
  {
  }
}

=== FILE: dictionary_extension.dfy ===
/** `Dictionary.append(dictionary:)`: a right-biased merge in place. */
module DictionaryExtension {
  import opened Wrappers

  /** The dictionary after `append(dictionary: d)`: a nil argument changes
      nothing, otherwise every entry of `d` is written over the receiver. */
  function Append<K, V>(m: map<K, V>, d: Option<map<K, V>>): (r: map<K, V>)
    ensures d.None? ==> r == m
    ensures d.Some? ==> r.Keys == m.Keys + d.value.Keys
    ensures d.Some? ==> forall k :: k in d.value ==> k in r && r[k] == d.value[k]
    ensures forall k :: k in m && (d.None? || k !in d.value) ==> k in r && r[k] == m[k]
  {
    match d
    case None => m
    case Some(e) => m + e
  }

  /** The loop of the source: one `updateValue(_:forKey:)` per entry of the
      argument, in whatever order the dictionary yields them. */
  method AppendEach<K, V>(m: map<K, V>, d: Option<map<K, V>>) returns (r: map<K, V>)
    ensures r == Append(m, d)
  {
    r := m;
    if d.None? {
      return;
    }
    var e := d.value;
    var pending := e.Keys;
    while pending != {}
      invariant pending <= e.Keys
      invariant r.Keys == m.Keys + (e.Keys - pending)
      invariant forall k :: k in e && k !in pending ==> r[k] == e[k]
      invariant forall k :: k in m && (k !in e || k in pending) ==> r[k] == m[k]
      decreases pending
    {
      var k :| k in pending;
      r := r[k := e[k]];
      pending := pending - {k};
    }
    assert r == m + e;
  }

  /** Appending the same dictionary a second time changes nothing more. */
  lemma AppendTwice<K, V>(m: map<K, V>, d: Option<map<K, V>>)
    ensures Append(Append(m, d), d) == Append(m, d)
  {
  }

  /** Appending an empty dictionary is the identity. */
  lemma AppendEmpty<K, V>(m: map<K, V>)
    ensures Append(m, Some(map[])) == m
  {
  }

  /** Layering is associative: appending `b` then `c` is appending `b`
      already overwritten by `c`. */
  lemma AppendAssociative<K, V>(a: map<K, V>, b: map<K, V>, c: map<K, V>)
    ensures Append(Append(a, Some(b)), Some(c)) == Append(a, Some(Append(b, Some(c))))
  {
  }
}

=== FILE: download_properties.dfy ===
/** What the download task promises its delegate and the disk, over single
    transitions and whole runs. */
module DownloadProperties {
  import opened Wrappers
  import opened FileSystem
  import opened Transfer
  import Op = ConcurrentOperation
  import opened Download

  /** Starting a download calls no delegate method. */
  lemma StartDeliversNoCallback(t: DownloadTask, disk: Disk)
    requires t.staging.Some?
    ensures Callbacks(Start(t, disk).task.op.log) == Callbacks(t.op.log)
  {
    Op.SelectTransitions(t.op, IsCallback);
    Op.SelectEmit(Op.Start(t.op), BackgroundBegan, IsCallback);
  }

  /** The tail shared by every completion: the token is ended and the
      operation completed without a callback, then `e` reaches the delegate
      if there is one. */
  lemma NotifiedAfterFinishing(t: DownloadTask, e: Event)
    requires t.token != NotBegun && IsCallback(e)
    ensures Callbacks(Notify(Finish(t), e).op.log) == Callbacks(t.op.log) + (if t.delegate.Some? then [e] else [])
  {
    var ended := EndBackgroundTask(t);
    Op.SelectEmit(t.op, BackgroundEnded(t.token), IsCallback);
    Op.SelectTransitions(ended.op, IsCallback);
    Op.SelectEmit(Finish(t).op, e, IsCallback);
  }

  /** Without an error and with a possible move, the delegate hears exactly
      one completion, carrying the destination, and no failure. */
  lemma CompleteMovesIntoPlace(t: DownloadTask, disk: Disk)
    requires t.staging.Some? && t.token != NotBegun
    requires Placeable(t, disk)
    ensures
      var s := Complete(t, disk, None);
      && Callbacks(s.task.op.log) == Callbacks(t.op.log) + (if t.delegate.Some? then [CompletedWithUrl(t.destination)] else [])
      && s.disk.files[t.destination] == disk.files[t.staging.value]
      && t.staging.value !in s.disk.files
  {
    NotifiedAfterFinishing(t, CompletedWithUrl(t.destination));
  }

  /** Without an error but with a failing removal or move, the delegate hears
      exactly one failure, carrying the file manager's error; the staging
      file is left where it was unless it is the destination itself. */
  lemma CompleteReportsFailedMove(t: DownloadTask, disk: Disk)
    requires t.staging.Some? && t.token != NotBegun
    requires !Placeable(t, disk)
    ensures
      var s := Complete(t, disk, None);
      var placement := MoveIntoPlace(disk, t.staging.value, t.destination);
      && placement.NotPlaced?
      && Callbacks(s.task.op.log) == Callbacks(t.op.log) + (if t.delegate.Some? then [FailedWithError(File(placement.error))] else [])
      && (t.staging.value != t.destination ==>
            && (t.staging.value in s.disk.files <==> t.staging.value in disk.files)
            && (t.staging.value in disk.files ==> s.disk.files[t.staging.value] == disk.files[t.staging.value]))
  {
    var placement := MoveIntoPlace(disk, t.staging.value, t.destination);
    NotifiedAfterFinishing(t, FailedWithError(File(placement.error)));
  }

  /** With a transport error, the delegate hears exactly that error once, and
      the staging file is gone unless the system refused to remove it. */
  lemma CompleteReportsTransportError(t: DownloadTask, disk: Disk, code: int)
    requires t.staging.Some? && t.token != NotBegun
    ensures
      var s := Complete(t, disk, Some(code));
      && Callbacks(s.task.op.log) == Callbacks(t.op.log) + (if t.delegate.Some? then [FailedWithError(Transport(code))] else [])
      && (t.staging.value !in disk.locked ==> t.staging.value !in s.disk.files)
  {
    NotifiedAfterFinishing(t, FailedWithError(Transport(code)));
  }

  /** Every completion delivers at most one callback, and exactly one when a
      delegate is set. */
  lemma CompleteDeliversOneCallback(t: DownloadTask, disk: Disk, error: Option<int>)
    requires t.staging.Some? && t.token != NotBegun
    ensures
      var s := Complete(t, disk, error);
      |Callbacks(s.task.op.log)| == |Callbacks(t.op.log)| + (if t.delegate.Some? then 1 else 0)
  {
    match error
    case Some(code) => CompleteReportsTransportError(t, disk, code);
    case None =>
      if Placeable(t, disk) {
        CompleteMovesIntoPlace(t, disk);
      } else {
        CompleteReportsFailedMove(t, disk);
      }
  }

  /** After `cancel`, nothing reaches the delegate: neither cancelling itself,
      nor a progress report, nor a completion that was already on its way. */
  lemma CancelSilencesDelegate(t: DownloadTask, disk: Disk, later: Disk, error: Option<int>, totalBytesRead: int, totalBytesExpected: int)
    requires t.staging.Some? && t.token != NotBegun
    ensures
      var c := Cancel(t, disk).task;
      && Callbacks(c.op.log) == Callbacks(t.op.log)
      && OnProgress(c, totalBytesRead, totalBytesExpected) == c
      && Callbacks(Complete(c, later, error).task.op.log) == Callbacks(t.op.log)
  {
    var c := Cancel(t, disk).task;
    if t.request.Some? {
      Op.SelectEmit(t.op, RequestCancelled, IsCallback);
    }
    match error
    case Some(code) => CompleteReportsTransportError(c, later, code);
    case None =>
      if Placeable(c, later) {
        CompleteMovesIntoPlace(c, later);
      } else {
        CompleteReportsFailedMove(c, later);
      }
  }

  /** When the background task expired first, the expiry handler ends it
      with the valid identifier and resets it; the completion then calls
      `endBackgroundTask` again, with the invalid identifier. The history
      shows the two calls in a row. */
  lemma ExpiryThenCompletionEndsInvalid(t: DownloadTask, disk: Disk, error: Option<int>)
    requires t.staging.Some? && t.token == Valid
    ensures
      var s := Complete(OnExpiration(t), disk, error);
      && |s.task.op.log| > |t.op.log| + 1
      && s.task.op.log[|t.op.log|] == Op.Event(BackgroundEnded(Valid))
      && s.task.op.log[|t.op.log| + 1] == Op.Event(BackgroundEnded(Invalid))
  {
  }

  /** A whole successful run: start, the transport writing `body` to the
      staging file, completion. The destination then holds exactly `body`,
      no staging file is left, nothing else on disk changed, and the delegate
      heard one completion. */
  lemma SuccessfulDownload(t: DownloadTask, disk: Disk, body: Content)
    requires t.staging.Some? && t.staging.value != t.destination
    requires t.staging.value !in disk.locked && t.destination !in disk.locked
    ensures Start(t, disk).task.request.Some?
    ensures
      var s1 := Start(t, disk);
      var s3 := Complete(s1.task, Receive(s1, body).disk, None);
      && t.destination in s3.disk.files && s3.disk.files[t.destination] == body
      && t.staging.value !in s3.disk.files
      && SameExcept(disk, s3.disk, {t.staging.value, t.destination})
      && Callbacks(s3.task.op.log) == Callbacks(t.op.log) + (if t.delegate.Some? then [CompletedWithUrl(t.destination)] else [])
      && s3.task.op.finished && s3.task.token == Invalid
  {
    var staging := t.staging.value;
    var s1 := Start(t, disk);
    assert s1.task.request == Some(Request(t.source, staging));
    StartDeliversNoCallback(t, disk);
    var s2 := Receive(s1, body);
    assert staging in s2.disk.files && s2.disk.files[staging] == body;
    assert s2.disk.locked == disk.locked;
    assert Placeable(s1.task, s2.disk);
    CompleteMovesIntoPlace(s1.task, s2.disk);
    var s3 := Complete(s1.task, s2.disk, None);
    SameExceptTransitive(disk, s1.disk, s2.disk, {staging}, {staging});
    SameExceptTransitive(disk, s2.disk, s3.disk, {staging}, {staging, t.destination});
    assert {staging} + {staging, t.destination} == {staging, t.destination};
  }

  /** A destination directly inside the download folder is its own staging
      path: the finished download is removed as the "existing destination"
      and the move then finds nothing, so the file is lost and the delegate
      hears a failure. */
  lemma DestinationInDownloadFolderIsLost(id: string, source: Url, folder: Path, name: string,
                                          delegate: Option<Observer>, disk: Disk, body: Content)
    requires folder + [name] !in disk.locked
    ensures Init(id, source, folder + [name], delegate, Some(folder)).staging == Some(folder + [name])
    ensures
      var t := Init(id, source, folder + [name], delegate, Some(folder));
      var s1 := Start(t, disk);
      && s1.task.request.Some?
      && var s3 := Complete(s1.task, Receive(s1, body).disk, None);
      && folder + [name] !in s3.disk.files
      && Callbacks(s3.task.op.log) == (if delegate.Some? then [FailedWithError(File(NoSuchFile(folder + [name])))] else [])
  {
    var destination := folder + [name];
    var t := Init(id, source, destination, delegate, Some(folder));
    assert LastComponent(destination) == name;
    assert t.staging == Some(destination);
    var s1 := Start(t, disk);
    StartDeliversNoCallback(t, disk);
    var s2 := Receive(s1, body);
    assert !Placeable(s1.task, s2.disk);
    CompleteReportsFailedMove(s1.task, s2.disk);
  }

  /** A stale staging file that cannot be removed makes `start` skip the
      request as well: the fresh task is left executing with its background
      token held, no request to complete it, and no callback. Only the
      token's expiry ends the background task, and nothing ever finishes the
      operation. */
  lemma LockedStaleStagingHangs(id: string, source: Url, destination: Path, delegate: Option<Observer>, folder: Path, disk: Disk)
    requires |destination| > 0
    requires folder + [LastComponent(destination)] in disk.files
    requires folder + [LastComponent(destination)] in disk.locked
    ensures
      var s := Start(Init(id, source, destination, delegate, Some(folder)), disk);
      && s.task.request.None? && s.task.op.executing && !s.task.op.finished
      && s.task.token == Valid && s.disk == disk
      && Callbacks(s.task.op.log) == []
  {
    var t := Init(id, source, destination, delegate, Some(folder));
    assert t.staging == Some(folder + [LastComponent(destination)]);
    StartDeliversNoCallback(t, disk);
  }

  /** Starting and progress keep the flags in agreement with their announced
      changes. */
  lemma TransitionsKeepFlagsAnnounced(t: DownloadTask, disk: Disk, totalBytesRead: int, totalBytesExpected: int)
    requires t.staging.Some? && Op.Consistent(t.op)
    ensures Op.Consistent(Start(t, disk).task.op)
    ensures Op.Consistent(OnProgress(t, totalBytesRead, totalBytesExpected).op)
  {
    Op.TransitionsKeepConsistent(t.op);
    Op.EmitKeepsConsistent(Op.Start(t.op), BackgroundBegan);
    Op.EmitKeepsConsistent(t.op, ProgressReported(totalBytesRead, totalBytesExpected));
  }

  /** Cancelling and expiry keep the flags in agreement with their announced
      changes. */
  lemma CancelAndExpiryKeepFlagsAnnounced(t: DownloadTask, disk: Disk)
    requires t.staging.Some? && Op.Consistent(t.op)
    ensures Op.Consistent(Cancel(t, disk).task.op)
    ensures t.token != NotBegun ==> Op.Consistent(OnExpiration(t).op)
  {
    var cancelled := Op.Cancel(t.op);
    Op.TransitionsKeepConsistent(t.op);
    if t.request.Some? {
      Op.EmitKeepsConsistent(cancelled, RequestCancelled);
      assert Cancel(t, disk).task.op == Op.Emit(cancelled, RequestCancelled);
    } else {
      assert Cancel(t, disk).task.op == cancelled;
    }
    if t.token == Valid {
      Op.EmitKeepsConsistent(t.op, BackgroundEnded(t.token));
    }
  }

  /** A callback keeps the flags in agreement with their announced changes. */
  lemma NotifyKeepsFlagsAnnounced(t: DownloadTask, e: Event)
    requires Op.Consistent(t.op)
    ensures Op.Consistent(Notify(t, e).op)
  {
    Op.EmitKeepsConsistent(t.op, e);
  }

  /** The completion keeps the flags in agreement with their announced
      changes. */
  lemma CompleteKeepsFlagsAnnounced(t: DownloadTask, disk: Disk, error: Option<int>)
    requires t.staging.Some? && t.token != NotBegun && Op.Consistent(t.op)
    ensures Op.Consistent(Complete(t, disk, error).task.op)
  {
    Op.EmitKeepsConsistent(t.op, BackgroundEnded(t.token));
    Op.TransitionsKeepConsistent(EndBackgroundTask(t).op);
    var done := Finish(t);
    assert Op.Consistent(done.op);
    match error
    case Some(code) =>
      NotifyKeepsFlagsAnnounced(done, FailedWithError(Transport(code)));
    case None =>
      match MoveIntoPlace(disk, t.staging.value, t.destination)
      case Placed(_) =>
        NotifyKeepsFlagsAnnounced(done, CompletedWithUrl(t.destination));
      case NotPlaced(e, _) =>
        NotifyKeepsFlagsAnnounced(done, FailedWithError(File(e)));
  }

  /** A download cancelled before it starts (as cancelling every queued
      task does) is still started by the queue, and `start` goes on after
      the base class marked it finished: the request is issued and the
      fetched file still lands at the destination. */
  lemma CancelledDownloadStillLands(t: DownloadTask, disk: Disk, body: Content)
    requires t.staging.Some? && t.staging.value != t.destination
    requires t.staging.value !in disk.locked && t.destination !in disk.locked
    ensures
      var c := Cancel(t, disk);
      var s1 := Start(c.task, c.disk);
      && s1.task.op.cancelled && s1.task.op.finished
      && s1.task.request.Some? && s1.task.token == Valid
      && var s3 := Complete(s1.task, Receive(s1, body).disk, None);
      && t.destination in s3.disk.files && s3.disk.files[t.destination] == body
  {
    var c := Cancel(t, disk);
    var s1 := Start(c.task, c.disk);
    var s2 := Receive(s1, body);
    assert Placeable(s1.task, s2.disk);
  }

  /** With the corrected start, a download cancelled before it starts issues
      no request, takes no background task and leaves the disk as the
      cancellation left it: without its staging file and with the
      destination untouched. */
  lemma CancelledDownloadStaysCancelled(t: DownloadTask, disk: Disk)
    requires t.staging.Some?
    ensures
      var c := Cancel(t, disk);
      var s := StartUnlessCancelled(c.task, c.disk);
      && s.task.request.None? && s.task.token == t.token && s.task.op.finished
      && Callbacks(s.task.op.log) == Callbacks(t.op.log)
      && SameExcept(disk, s.disk, {t.staging.value})
      && (t.staging.value !in disk.locked ==> t.staging.value !in s.disk.files)
  {
    var c := Cancel(t, disk);
    if t.request.Some? {
      Op.SelectEmit(t.op, RequestCancelled, IsCallback);
    }
    Op.SelectTransitions(c.task.op, IsCallback);
  }
}

=== FILE: download_task.dfy ===
/** `DownloadTask`: a download written to a staging file in the download
    folder, moved over its destination when the transfer succeeds, inside a
    background task. */
module Download {
  import opened Wrappers
  import opened FileSystem
  import opened Transfer
  import Op = ConcurrentOperation

  /** What a download task does that others can observe, besides its flags:
      background-task calls, aborting its request, and delegate callbacks. */
  datatype Event =
    | BackgroundBegan
    | BackgroundEnded(identifier: Token)
    | RequestCancelled
    | ProgressReported(totalBytesRead: int, totalBytesExpected: int)
    | CompletedWithUrl(url: Path)
    | FailedWithError(error: Error)

  /** The events that are calls into the delegate. */
  predicate IsCallback(e: Event)
  {
    e.ProgressReported? || e.CompletedWithUrl? || e.FailedWithError?
  }

  /** The transport's download request: fetch `source` into `target`. */
  datatype Request = Request(source: Url, target: Path)

  /** The task. `staging` is `temporaryPathUrl`, absent when the download
      folder could not be created. */
  datatype DownloadTask = DownloadTask(
    id: string,
    source: Url,
    destination: Path,
    staging: Option<Path>,
    delegate: Option<Observer>,
    request: Option<Request>,
    token: Token,
    op: Op.Operation<Event>)

  /** A task together with the disk it works on. */
  datatype Step = Step(task: DownloadTask, disk: Disk)

  /** The delegate callbacks of a history, in order. */
  function Callbacks(log: seq<Op.Entry<Event>>): seq<Event>
  {
    Op.Select(log, IsCallback)
  }

  /** Record an event that is not a delegate callback. */
  function Record(t: DownloadTask, e: Event): DownloadTask
  {
    t.(op := Op.Emit(t.op, e))
  }

  /** `delegate?.…`: a callback is delivered only while a delegate is set. */
  function Notify(t: DownloadTask, e: Event): (r: DownloadTask)
    ensures r.(op := t.op) == t
    ensures t.delegate.None? ==> r == t
    ensures t.delegate.Some? ==> r.op == Op.Emit(t.op, e)
  {
    if t.delegate.Some? then Record(t, e) else t
  }

  function LastComponent(p: Path): string
    requires |p| > 0
  {
    p[|p| - 1]
  }

  /** The initialiser. `folder` is what the download manager reports as the
      download folder (`None` when it could not be created). The last path
      component of the destination is force-unwrapped, hence the
      requirement. */
  function Init(id: string, source: Url, destination: Path, delegate: Option<Observer>, folder: Option<Path>): (t: DownloadTask)
    requires folder.Some? ==> |destination| > 0
    ensures t.id == id && t.source == source && t.destination == destination
    ensures t.staging.Some? <==> folder.Some?
    ensures t.staging.Some? ==>
      && |t.staging.value| == |folder.value| + 1
      && t.staging.value[..|folder.value|] == folder.value
      && LastComponent(t.staging.value) == LastComponent(destination)
    ensures folder.Some? ==> t.delegate == delegate
    ensures folder.None? ==> t.delegate.None?
    ensures t.request.None? && t.token == NotBegun && t.op == Op.New()
  {
    match folder
    case None => DownloadTask(id, source, destination, None, None, None, NotBegun, Op.New())
    case Some(dir) =>
      var staging := dir + [LastComponent(destination)];
      assert staging[..|dir|] == dir;
      DownloadTask(id, source, destination, Some(staging), delegate, None, NotBegun, Op.New())
  }

  /** `start`: the base class's start (which does not stop a cancelled task
      from going on), then the background task, then removal of a stale
      staging file, and only if that did not throw, the request. */
  function Start(t: DownloadTask, disk: Disk): (s: Step)
    requires t.staging.Some?
    ensures s.task.token == Valid
    ensures s.task.(request := t.request, token := t.token, op := t.op) == t
    ensures Op.Extends(t.op, s.task.op) && s.task.op.cancelled == t.op.cancelled
    ensures t.op.cancelled ==> s.task.op.finished && s.task.op.executing == t.op.executing
    ensures !t.op.cancelled ==> s.task.op.executing && s.task.op.finished == t.op.finished
    ensures |s.task.op.log| > 0 && s.task.op.log[|s.task.op.log| - 1] == Op.Event(BackgroundBegan)
    ensures var staging := t.staging.value;
      var issued := staging !in disk.files || staging !in disk.locked;
      && (issued ==> s.task.request == Some(Request(t.source, staging)) && staging !in s.disk.files && SameExcept(disk, s.disk, {staging}))
      && (!issued ==> s.task.request == t.request && s.disk == disk)
  {
    var staging := t.staging.value;
    var begun := Record(t.(op := Op.Start(t.op)), BackgroundBegan).(token := Valid);
    var issued := begun.(request := Some(Request(t.source, staging)));
    if staging in disk.files then
      match Remove(disk, staging)
      case Success(d) => Step(issued, d)
      case Failure(_) => Step(begun, disk)
    else
      Step(issued, disk)
  }

  /** `start` as the base class's documentation asks for it: a cancelled
      task stops once the base class has marked it finished, with no
      background task, no file operation and no request. */
  function StartUnlessCancelled(t: DownloadTask, disk: Disk): (s: Step)
    requires t.staging.Some?
    ensures Op.Extends(t.op, s.task.op) && s.task.op.cancelled == t.op.cancelled
    ensures t.op.cancelled ==> s.task.op.finished && s.task.op.executing == t.op.executing
    ensures t.op.cancelled ==> s.task.(op := t.op) == t && s.disk == disk
    ensures t.op.cancelled ==> forall i :: |t.op.log| <= i < |s.task.op.log| ==> !s.task.op.log[i].Event?
    ensures !t.op.cancelled ==> s == Start(t, disk)
  {
    if t.op.cancelled then Step(t.(op := Op.Start(t.op)), disk) else Start(t, disk)
  }

  /** The transport writing the response body to the path the request's
      destination closure returns, the staging path. */
  function Receive(s: Step, body: Content): (r: Step)
    requires s.task.request.Some?
    ensures r.task == s.task
    ensures s.task.request.value.target in r.disk.files && r.disk.files[s.task.request.value.target] == body
    ensures SameExcept(s.disk, r.disk, {s.task.request.value.target})
  {
    Step(s.task, Write(s.disk, s.task.request.value.target, body))
  }

  /** `endBackgroundTask`: end the background task, whatever its state, and
      mark the identifier invalid. */
  function EndBackgroundTask(t: DownloadTask): (r: DownloadTask)
    requires t.token != NotBegun
    ensures r.token == Invalid
    ensures r.(token := t.token, op := t.op) == t
    ensures r.op == Op.Emit(t.op, BackgroundEnded(t.token))
  {
    Record(t, BackgroundEnded(t.token)).(token := Invalid)
  }

  /** The background task's expiration handler: ends the background task
      only if the identifier is still valid. */
  function OnExpiration(t: DownloadTask): (r: DownloadTask)
    requires t.token != NotBegun
    ensures r.token == Invalid
    ensures r.(token := t.token, op := t.op) == t
    ensures t.token == Invalid ==> r == t
    ensures t.token == Valid ==> r.op == Op.Emit(t.op, BackgroundEnded(Valid))
  {
    if t.token != Invalid then EndBackgroundTask(t) else t
  }

  /** The progress closure; the fraction is left to the delegate, the model
      passes on the running totals it is computed from. */
  function OnProgress(t: DownloadTask, totalBytesRead: int, totalBytesExpected: int): (r: DownloadTask)
    ensures t.delegate.None? ==> r == t
    ensures t.delegate.Some? ==> r.op == Op.Emit(t.op, ProgressReported(totalBytesRead, totalBytesExpected))
    ensures r.(op := t.op) == t
  {
    Notify(t, ProgressReported(totalBytesRead, totalBytesExpected))
  }

  /** Where a move into place can leave the disk. */
  datatype Placement = Placed(disk: Disk) | NotPlaced(error: FsError, disk: Disk)

  /** Remove an existing destination file, then move the staging file over;
      the first error thrown stops the sequence. */
  function MoveIntoPlace(d: Disk, staging: Path, destination: Path): (r: Placement)
    ensures r.Placed? <==> staging != destination && staging in d.files && staging !in d.locked && destination !in d.locked
    ensures r.Placed? ==>
      && destination in r.disk.files && r.disk.files[destination] == d.files[staging]
      && staging !in r.disk.files
      && SameExcept(d, r.disk, {staging, destination})
    ensures r.NotPlaced? ==> SameExcept(d, r.disk, {destination})
    ensures r.NotPlaced? ==> r.disk == d || (destination in d.files && r.disk == d.(files := d.files - {destination}))
  {
    var cleared := if destination in d.files then Remove(d, destination) else Success(d);
    match cleared
    case Failure(e) => NotPlaced(e, d)
    case Success(d1) =>
      match Move(d1, staging, destination)
      case Failure(e) => NotPlaced(e, d1)
      case Success(d2) => Placed(d2)
  }

  /** A move into place succeeds on `d`. */
  ghost predicate Placeable(t: DownloadTask, d: Disk)
    requires t.staging.Some?
  {
    MoveIntoPlace(d, t.staging.value, t.destination).Placed?
  }

  /** The first two steps of every completion: end the background task,
      then complete the operation; no callback among them. */
  function Finish(t: DownloadTask): (r: DownloadTask)
    requires t.token != NotBegun
    ensures r.token == Invalid && !r.op.executing && r.op.finished && r.op.cancelled == t.op.cancelled
    ensures r.(token := t.token, op := t.op) == t
    ensures Op.Extends(t.op, r.op) && |r.op.log| > |t.op.log|
    ensures r.op.log[|t.op.log|] == Op.Event(BackgroundEnded(t.token))
    ensures forall i :: |t.op.log| <= i < |r.op.log| ==> !r.op.log[i].Event? || !IsCallback(r.op.log[i].event)
  {
    var ended := EndBackgroundTask(t);
    ended.(op := Op.CompleteOperation(ended.op))
  }

  /** `downloadCompletionCallback`: end the background task and complete
      the operation unconditionally, then either move the staging file into
      place and report the outcome, or report the transport error and drop
      the staging file. */
  function Complete(t: DownloadTask, disk: Disk, error: Option<int>): (s: Step)
    requires t.staging.Some? && t.token != NotBegun
    ensures s.task.token == Invalid && !s.task.op.executing && s.task.op.finished && s.task.op.cancelled == t.op.cancelled
    ensures s.task.(token := t.token, op := t.op) == t
    ensures Op.Extends(t.op, s.task.op) && |s.task.op.log| > |t.op.log|
    ensures s.task.op.log[|t.op.log|] == Op.Event(BackgroundEnded(t.token))
    ensures forall i :: |t.op.log| <= i < |s.task.op.log| - 1 ==> !s.task.op.log[i].Event? || !IsCallback(s.task.op.log[i].event)
    ensures error.Some? ==>
      && SameExcept(disk, s.disk, {t.staging.value})
      && (t.staging.value !in disk.locked ==> t.staging.value !in s.disk.files)
      && (t.staging.value in disk.locked ==> s.disk == disk)
    ensures error.None? && Placeable(t, disk) ==>
      && t.destination in s.disk.files && s.disk.files[t.destination] == disk.files[t.staging.value]
      && t.staging.value !in s.disk.files
      && SameExcept(disk, s.disk, {t.staging.value, t.destination})
    ensures error.None? && !Placeable(t, disk) ==> SameExcept(disk, s.disk, {t.destination})
    ensures error.None? && !Placeable(t, disk) ==>
      s.disk == disk || (t.destination in disk.files && s.disk == disk.(files := disk.files - {t.destination}))
  {
    var done := Finish(t);
    var staging := t.staging.value;
    match error
    case None =>
      (match MoveIntoPlace(disk, staging, t.destination)
       case Placed(d) => Step(Notify(done, CompletedWithUrl(t.destination)), d)
       case NotPlaced(e, d) => Step(Notify(done, FailedWithError(File(e))), d))
    case Some(code) =>
      Step(Notify(done, FailedWithError(Transport(code))), RemoveQuietly(disk, staging))
  }

  /** `cancel`: detach the delegate, cancel the operation, abort and drop the
      request, and remove the staging file, swallowing any error. */
  function Cancel(t: DownloadTask, disk: Disk): (s: Step)
    requires t.staging.Some?
    ensures s.task.delegate.None? && s.task.request.None? && s.task.op.cancelled
    ensures s.task.(delegate := t.delegate, request := t.request, op := t.op) == t
    ensures s.task.op.executing == t.op.executing && s.task.op.finished == t.op.finished
    ensures t.request.Some? ==> s.task.op.log == t.op.log + [Op.Event(RequestCancelled)]
    ensures t.request.None? ==> s.task.op.log == t.op.log
    ensures t.staging.value !in disk.locked ==> t.staging.value !in s.disk.files
    ensures t.staging.value in disk.locked ==> s.disk == disk
    ensures SameExcept(disk, s.disk, {t.staging.value})
  {
    var detached := t.(delegate := None, op := Op.Cancel(t.op));
    var aborted := if t.request.Some? then Record(detached, RequestCancelled) else detached;
    Step(aborted.(request := None), RemoveQuietly(disk, t.staging.value))
  }
}

=== FILE: file_system.dfy ===
/** The part of the file manager the download task uses: existence checks,
    removal and moving of files on an abstract disk. */
module FileSystem {
  import opened Wrappers

  /** A file path as its components. */
  type Path = seq<string>

  /** File contents. */
  type Content = seq<bv8>

  /** The errors the file manager throws. */
  datatype FsError = NoSuchFile(path: Path) | FileExists(path: Path) | PermissionDenied(path: Path)

  /** The disk: the stored files, and the paths the operating system refuses
      to remove, overwrite or move (the model's source of I/O failures). */
  datatype Disk = Disk(files: map<Path, Content>, locked: set<Path>)

  /** `a` and `b` agree on every path outside `ps` and on what is locked. */
  ghost predicate SameExcept(a: Disk, b: Disk, ps: set<Path>)
  {
    && a.locked == b.locked
    && (forall q :: q !in ps ==> (q in a.files <==> q in b.files))
    && (forall q :: q !in ps && q in a.files ==> a.files[q] == b.files[q])
  }

  /** Differences accumulate: two steps differ at most where either did. */
  lemma SameExceptTransitive(a: Disk, b: Disk, c: Disk, ps: set<Path>, qs: set<Path>)
    requires SameExcept(a, b, ps) && SameExcept(b, c, qs)
    ensures SameExcept(a, c, ps + qs)
  {
  }

  /** `removeItemAtPath`: throws for a missing or locked file. */
  function Remove(d: Disk, p: Path): (r: Result<Disk, FsError>)
    ensures r.Success? <==> p in d.files && p !in d.locked
    ensures r.Success? ==> p !in r.value.files && SameExcept(d, r.value, {p})
    ensures r.Failure? ==> r.error.path == p
  {
    if p !in d.files then Failure(NoSuchFile(p))
    else if p in d.locked then Failure(PermissionDenied(p))
    else Success(d.(files := d.files - {p}))
  }

  /** `try? removeItemAtPath`: a removal whose error is swallowed. */
  function RemoveQuietly(d: Disk, p: Path): (r: Disk)
    ensures p !in d.locked ==> p !in r.files
    ensures p in d.locked ==> r == d
    ensures SameExcept(d, r, {p})
  {
    match Remove(d, p)
    case Success(d') => d'
    case Failure(_) => d
  }

  /** `moveItemAtPath(_:toPath:)`: throws when the source is missing, the
      destination already exists, or either is locked. */
  function Move(d: Disk, src: Path, dst: Path): (r: Result<Disk, FsError>)
    ensures r.Success? <==> src in d.files && dst !in d.files && src !in d.locked && dst !in d.locked
    ensures r.Success? ==>
      && src !in r.value.files && dst in r.value.files && r.value.files[dst] == d.files[src]
      && SameExcept(d, r.value, {src, dst})
  {
    if src !in d.files then Failure(NoSuchFile(src))
    else if dst in d.files then Failure(FileExists(dst))
    else if src in d.locked then Failure(PermissionDenied(src))
    else if dst in d.locked then Failure(PermissionDenied(dst))
    else Success(d.(files := (d.files - {src})[dst := d.files[src]]))
  }

  /** Write `c` at `p`, replacing any file there. */
  function Write(d: Disk, p: Path, c: Content): (r: Disk)
    ensures p in r.files && r.files[p] == c
    ensures SameExcept(d, r, {p})
  {
    d.(files := d.files[p := c])
  }
}

=== FILE: http_request.dfy ===
/** `HttpRequest`: the process-wide header configuration, the layering of
    its three header maps, and the request a call to `request` builds. */
module HttpRequest {
  import opened Wrappers
  import opened DictionaryExtension

  /** `HttpHeaders`: header name to value. */
  type Headers = map<string, string>

  /** `HttpBody`; values are kept as strings, the model never looks inside. */
  type Body = map<string, string>

  /** The request methods of the transport library. */
  datatype Method = OPTIONS | GET | HEAD | POST | PUT | PATCH | DELETE | TRACE | CONNECT

  /** How the body is encoded: into the query string, or as JSON. */
  datatype Encoding = UrlEncoding | JsonEncoding

  /** The state of the shared instance. */
  datatype Config = Config(authorization: Headers, agent: Headers, referer: Headers)

  /** The request handed to the transport library. */
  datatype Request = Request(verb: Method, url: string, headers: Headers, body: Option<Body>, encoding: Encoding)

  /** The shared instance when first used. */
  function SharedInstance(): (c: Config)
    ensures c.authorization == map[] && c.agent == map[] && c.referer == map[]
  {
    Config(map[], map[], map[])
  }

  /** `setAuthorizationHeader`: replaces the authorization headers wholesale. */
  function SetAuthorizationHeader(c: Config, headers: Headers): (r: Config)
    ensures r.authorization == headers
    ensures r.agent == c.agent && r.referer == c.referer
  {
    c.(authorization := headers)
  }

  /** `setAgentHeader`: replaces the agent headers wholesale. */
  function SetAgentHeader(c: Config, headers: Headers): (r: Config)
    ensures r.agent == headers
    ensures r.authorization == c.authorization && r.referer == c.referer
  {
    c.(agent := headers)
  }

  /** `setRefererHeader`: replaces the referer headers wholesale. */
  function SetRefererHeader(c: Config, headers: Headers): (r: Config)
    ensures r.referer == headers
    ensures r.authorization == c.authorization && r.agent == c.agent
  {
    c.(referer := headers)
  }

  /** Only the last write of each setter is remembered, and setters of
      different maps do not interfere. */
  lemma LastWriteWins(c: Config, h1: Headers, h2: Headers)
    ensures SetAuthorizationHeader(SetAuthorizationHeader(c, h1), h2) == SetAuthorizationHeader(c, h2)
    ensures SetAgentHeader(SetAgentHeader(c, h1), h2) == SetAgentHeader(c, h2)
    ensures SetRefererHeader(SetRefererHeader(c, h1), h2) == SetRefererHeader(c, h2)
    ensures SetAuthorizationHeader(SetAgentHeader(c, h1), h2) == SetAgentHeader(SetAuthorizationHeader(c, h2), h1)
    ensures SetAuthorizationHeader(SetRefererHeader(c, h1), h2) == SetRefererHeader(SetAuthorizationHeader(c, h2), h1)
    ensures SetAgentHeader(SetRefererHeader(c, h1), h2) == SetRefererHeader(SetAgentHeader(c, h2), h1)
  {
  }

  /** `buildRequestHeader`: the referer headers over the agent headers, both
      over the authorization headers when the call is authenticated. */
  function BuildRequestHeader(c: Config, requiredAuthorization: bool): (r: Headers)
    ensures requiredAuthorization ==> r.Keys == c.authorization.Keys + c.agent.Keys + c.referer.Keys
    ensures !requiredAuthorization ==> r.Keys == c.agent.Keys + c.referer.Keys
    ensures forall k :: k in c.referer ==> r[k] == c.referer[k]
    ensures forall k :: k in c.agent && k !in c.referer ==> r[k] == c.agent[k]
    ensures requiredAuthorization ==>
      forall k :: k in c.authorization && k !in c.agent && k !in c.referer ==> r[k] == c.authorization[k]
  {
    if requiredAuthorization then
      Append(Append(c.authorization, Some(c.agent)), Some(c.referer))
    else
      Append(c.agent, Some(c.referer))
  }

  /** A header set only among the authorization headers reaches a request
      exactly when the call is authenticated. */
  lemma AuthorizationOnlyWhenRequired(c: Config, requiredAuthorization: bool, k: string)
    requires k in c.authorization && k !in c.agent && k !in c.referer
    ensures k in BuildRequestHeader(c, requiredAuthorization) <==> requiredAuthorization
  {
  }

  /** The encoding chosen for a verb. */
  function EncodingFor(verb: Method): (e: Encoding)
    ensures e == UrlEncoding <==> verb == GET
    ensures e == JsonEncoding <==> verb != GET
  {
    if verb == GET then UrlEncoding else JsonEncoding
  }

  /** `request`: the built headers with the explicit headers on top, and the
      encoding chosen by method. */
  function MakeRequest(c: Config, verb: Method, url: string, headers: Option<Headers>,
                       body: Option<Body>, requiredAuthorization: bool): (r: Request)
    ensures r.verb == verb && r.url == url && r.body == body
    ensures r.encoding == UrlEncoding <==> verb == GET
    ensures headers.None? ==> r.headers == BuildRequestHeader(c, requiredAuthorization)
    ensures headers.Some? ==> r.headers.Keys == BuildRequestHeader(c, requiredAuthorization).Keys + headers.value.Keys
    ensures headers.Some? ==> forall k :: k in headers.value ==> r.headers[k] == headers.value[k]
    ensures forall k :: k in BuildRequestHeader(c, requiredAuthorization) && (headers.None? || k !in headers.value) ==>
      r.headers[k] == BuildRequestHeader(c, requiredAuthorization)[k]
  {
    var encoding := EncodingFor(verb);
    var requestHeaders := Append(BuildRequestHeader(c, requiredAuthorization), headers);
    Request(verb, url, requestHeaders, body, encoding)
  }

  /** With agent `{A: 1}` and referer `{R: 2}`, an explicit `{A: 3}` yields
      exactly `{A: 3, R: 2}`. */
  lemma ExplicitHeadersWin()
    ensures
      var c := SetRefererHeader(SetAgentHeader(SharedInstance(), map["A" := "1"]), map["R" := "2"]);
      MakeRequest(c, GET, "u", Some(map["A" := "3"]), None, false).headers == map["A" := "3", "R" := "2"]
  {
    var c := SetRefererHeader(SetAgentHeader(SharedInstance(), map["A" := "1"]), map["R" := "2"]);
    var r := MakeRequest(c, GET, "u", Some(map["A" := "3"]), None, false);
    assert r.headers.Keys == {"A", "R"};
  }
}

=== FILE: transfer.dfy ===
/** Vocabulary shared by the download and upload tasks. */
module Transfer {
  import FileSystem

  /** A remote URL. */
  type Url = string

  /** The background-task identifier: not yet requested (the implicitly
      unwrapped property is still nil), held, or ended. */
  datatype Token = NotBegun | Valid | Invalid

  /** A delegate, known only by identity; the weak reference is modelled as
      an optional one. */
  datatype Observer = Observer(id: nat)

  /** The error a failure callback carries: the transport's, or the file
      manager's. */
  datatype Error = Transport(code: int) | File(reason: FileSystem.FsError)
}

=== FILE: upload_properties.dfy ===
/** What the upload task promises its delegate, and where it falls short of
    the base class's contract. */
module UploadProperties {
  import opened Wrappers
  import opened FileSystem
  import opened Transfer
  import Op = ConcurrentOperation
  import opened Upload

  /** The callback a response produces. */
  function Outcome(error: Option<int>): (e: Event)
    ensures IsCallback(e)
  {
    match error
    case None => CompletedWithResult(None)
    case Some(code) => FailedWithError(Transport(code))
  }

  /** A response reaches the delegate as exactly one callback: a completion
      with no result when there is no error, the error otherwise; never
      both. */
  lemma ResponseDeliversOneCallback(t: UploadTask, error: Option<int>)
    ensures Callbacks(OnResponse(t, error).op.log) == Callbacks(t.op.log) + (if t.delegate.Some? then [Outcome(error)] else [])
    ensures error.None? ==> Outcome(error) == CompletedWithResult(None)
    ensures error.Some? ==> Outcome(error) == FailedWithError(Transport(error.value))
  {
    Op.SelectEmit(t.op, Outcome(error), IsCallback);
  }

  /** Starting an upload calls no delegate method. */
  lemma StartDeliversNoCallback(t: UploadTask)
    ensures Callbacks(Start(t).op.log) == Callbacks(t.op.log)
  {
    Op.SelectTransitions(t.op, IsCallback);
    var begun := Op.Emit(Op.Start(t.op), BackgroundBegan);
    Op.SelectEmit(Op.Start(t.op), BackgroundBegan, IsCallback);
    Op.SelectEmit(begun, UploadIssued(Request(t.fileUrl, t.destinationUrl)), IsCallback);
  }

  /** After `cancel`, nothing reaches the delegate: neither cancelling itself,
      nor progress, nor a response already on its way. */
  lemma CancelSilencesDelegate(t: UploadTask, error: Option<int>, completed: int, total: int)
    ensures Callbacks(Cancel(t).op.log) == Callbacks(t.op.log)
    ensures OnProgress(Cancel(t), completed, total) == Cancel(t)
    ensures OnResponse(Cancel(t), error) == Cancel(t)
  {
    if t.request.Some? {
      Op.SelectEmit(Op.Cancel(t.op), RequestCancelled, IsCallback);
    }
  }

  /** No transition ever stores a request handle. */
  lemma RequestNeverStored(t: UploadTask, error: Option<int>, completed: int, total: int)
    requires t.request.None?
    ensures Start(t).request.None? && OnResponse(t, error).request.None?
    ensures OnProgress(t, completed, total).request.None? && Cancel(t).request.None?
    ensures t.token != NotBegun ==> OnExpiration(t).request.None?
  {
  }

  /** Hence cancelling a started upload aborts nothing: the history shows no
      request being cancelled. */
  lemma CancelNeverAbortsUpload(id: string, file: Path, destination: Url, delegate: Option<Observer>)
    ensures
      var t := Start(Init(id, file, destination, delegate));
      Cancel(t).op.log == t.op.log
  {
  }

  /** With the handle kept, cancelling a started upload aborts its request. */
  lemma CancelAbortsKeptRequest(id: string, file: Path, destination: Url, delegate: Option<Observer>)
    ensures
      var t := StartKeepingRequest(Init(id, file, destination, delegate));
      var c := Cancel(t);
      && c.op.log == t.op.log + [Op.Event(RequestCancelled)]
      && c.request.None?
  {
  }

  /** An upload cancelled before the queue starts it is marked finished, yet
      its `start` still takes a background token and issues the upload, and
      since no response handler ends that token, it is held until it
      expires. */
  lemma CancelledUploadStillUploads(id: string, file: Path, destination: Url, delegate: Option<Observer>, error: Option<int>)
    ensures
      var t := Start(Cancel(Init(id, file, destination, delegate)));
      && t.op.finished && t.op.cancelled && t.token == Valid
      && Op.Event(UploadIssued(Request(file, destination))) in t.op.log
      && OnResponse(t, error).token == Valid
  {
    var t := Start(Cancel(Init(id, file, destination, delegate)));
    assert t.op.log[|t.op.log| - 1] == Op.Event(UploadIssued(Request(file, destination)));
  }

  /** With the corrected start, a cancelled upload is finished without any
      background task, upload or callback: its history holds flag
      announcements only. */
  lemma CancelledUploadStaysIdle(id: string, file: Path, destination: Url, delegate: Option<Observer>)
    ensures
      var t := StartUnlessCancelled(Cancel(Init(id, file, destination, delegate)));
      && t.op.finished && t.token == NotBegun && t.request.None?
      && (forall i :: 0 <= i < |t.op.log| ==> !t.op.log[i].Event?)
      && Callbacks(t.op.log) == []
  {
    var c := Cancel(Init(id, file, destination, delegate));
    Op.SelectTransitions(c.op, IsCallback);
  }

  /** A started upload that receives its response is still executing, never
      finished, and still holds its background task: the queue never gets
      its slot back. */
  lemma ResponseLeavesOperationRunning(id: string, file: Path, destination: Url, delegate: Option<Observer>, error: Option<int>)
    ensures
      var r := OnResponse(Start(Init(id, file, destination, delegate)), error);
      r.op.executing && !r.op.finished && r.token == Valid
  {
  }

  /** The corrected response handler finishes the operation, ends the
      background task before the delegate hears anything, and still
      delivers exactly one callback. */
  lemma CompletingResponseFinishes(t: UploadTask, error: Option<int>)
    requires t.token != NotBegun
    ensures
      var r := OnResponseCompleting(t, error);
      && r.op.finished && !r.op.executing && r.token == Invalid
      && Callbacks(r.op.log) == Callbacks(t.op.log) + (if t.delegate.Some? then [Outcome(error)] else [])
      && (forall i :: |t.op.log| <= i < |r.op.log| - 1 ==> !r.op.log[i].Event? || !IsCallback(r.op.log[i].event))
  {
    var ended := EndBackgroundTask(t);
    Op.SelectEmit(t.op, BackgroundEnded(t.token), IsCallback);
    Op.SelectTransitions(ended.op, IsCallback);
    var done := Finish(t);
    ResponseDeliversOneCallback(done, error);
  }

  /** Starting, progress and expiry keep the flags in agreement with their
      announced changes. */
  lemma TransitionsKeepFlagsAnnounced(t: UploadTask, completed: int, total: int)
    requires Op.Consistent(t.op)
    ensures Op.Consistent(Start(t).op)
    ensures Op.Consistent(OnProgress(t, completed, total).op)
    ensures t.token != NotBegun ==> Op.Consistent(OnExpiration(t).op)
  {
    Op.TransitionsKeepConsistent(t.op);
    var begun := Op.Emit(Op.Start(t.op), BackgroundBegan);
    Op.EmitKeepsConsistent(Op.Start(t.op), BackgroundBegan);
    Op.EmitKeepsConsistent(begun, UploadIssued(Request(t.fileUrl, t.destinationUrl)));
    Op.EmitKeepsConsistent(t.op, ProgressReported(completed, total));
    Op.EmitKeepsConsistent(t.op, BackgroundEnded(t.token));
  }

  /** Responses and cancellation keep the flags in agreement with their
      announced changes. */
  lemma ResponseAndCancelKeepFlagsAnnounced(t: UploadTask, error: Option<int>)
    requires Op.Consistent(t.op)
    ensures Op.Consistent(OnResponse(t, error).op)
    ensures Op.Consistent(Cancel(t).op)
  {
    Op.EmitKeepsConsistent(t.op, Outcome(error));
    Op.TransitionsKeepConsistent(t.op);
    Op.EmitKeepsConsistent(Op.Cancel(t.op), RequestCancelled);
  }
}

=== FILE: upload_task.dfy ===
/** `UploadTask`: an upload of a local file inside a background task, with
    one delegate callback per response. */
module Upload {
  import opened Wrappers
  import opened FileSystem
  import opened Transfer
  import Op = ConcurrentOperation

  /** What an upload task does that others can observe, besides its flags:
      background-task calls, issuing and aborting its request, and delegate
      callbacks. */
  datatype Event =
    | BackgroundBegan
    | BackgroundEnded(identifier: Token)
    | UploadIssued(request: Request)
    | RequestCancelled
    | ProgressReported(completed: int, total: int)
    | CompletedWithResult(result: Option<string>)
    | FailedWithError(error: Error)

  /** The events that are calls into the delegate. */
  predicate IsCallback(e: Event)
  {
    e.ProgressReported? || e.CompletedWithResult? || e.FailedWithError?
  }

  /** The transport's upload request: send `file` to `destination`. */
  datatype Request = Request(file: Path, destination: Url)

  /** What an `Uploadable` answers when asked for its ID, destination URL
      and file URL. */
  datatype Uploadable = Uploadable(uploadId: string, destinationUrl: Option<Url>, fileUrl: Option<Path>)

  /** The task. */
  datatype UploadTask = UploadTask(
    id: string,
    fileUrl: Path,
    destinationUrl: Url,
    delegate: Option<Observer>,
    request: Option<Request>,
    token: Token,
    op: Op.Operation<Event>)

  /** The delegate callbacks of a history, in order. */
  function Callbacks(log: seq<Op.Entry<Event>>): seq<Event>
  {
    Op.Select(log, IsCallback)
  }

  /** Record an event that is not a delegate callback. */
  function Record(t: UploadTask, e: Event): UploadTask
  {
    t.(op := Op.Emit(t.op, e))
  }

  /** `delegate?.uploadTask?(…)`: delivered only while a delegate is set. */
  function Notify(t: UploadTask, e: Event): (r: UploadTask)
    ensures r.(op := t.op) == t
    ensures t.delegate.None? ==> r == t
    ensures t.delegate.Some? ==> r.op == Op.Emit(t.op, e)
  {
    if t.delegate.Some? then Record(t, e) else t
  }

  /** The memberwise initialiser. */
  function Init(id: string, fileUrl: Path, destinationUrl: Url, delegate: Option<Observer>): (t: UploadTask)
    ensures t.id == id && t.fileUrl == fileUrl && t.destinationUrl == destinationUrl && t.delegate == delegate
    ensures t.request.None? && t.token == NotBegun && t.op == Op.New()
  {
    UploadTask(id, fileUrl, destinationUrl, delegate, None, NotBegun, Op.New())
  }

  /** The failable initialiser: no task unless the `Uploadable` provides both
      a file URL and a destination URL. */
  function FromUploadable(u: Uploadable, delegate: Observer): (r: Option<UploadTask>)
    ensures r.None? <==> u.fileUrl.None? || u.destinationUrl.None?
    ensures r.Some? ==>
      && r.value.fileUrl == u.fileUrl.value && r.value.destinationUrl == u.destinationUrl.value
      && r.value.id == u.uploadId && r.value.delegate == Some(delegate)
      && r.value.request.None? && r.value.token == NotBegun && r.value.op == Op.New()
  {
    match (u.fileUrl, u.destinationUrl)
    case (Some(file), Some(destination)) => Some(Init(u.uploadId, file, destination, Some(delegate)))
    case _ => None
  }

  /** `start`: the base class's start (which does not stop a cancelled task
      from going on), then the background task, then the upload, whose
      request handle is dropped on the floor. */
  function Start(t: UploadTask): (r: UploadTask)
    ensures r.token == Valid
    ensures r.request == t.request
    ensures r.(token := t.token, op := t.op) == t
    ensures Op.Extends(t.op, r.op) && r.op.cancelled == t.op.cancelled
    ensures t.op.cancelled ==> r.op.finished && r.op.executing == t.op.executing
    ensures !t.op.cancelled ==> r.op.executing && r.op.finished == t.op.finished
    ensures |r.op.log| > 1 && r.op.log[|r.op.log| - 2] == Op.Event(BackgroundBegan)
    ensures r.op.log[|r.op.log| - 1] == Op.Event(UploadIssued(Request(t.fileUrl, t.destinationUrl)))
  {
    var begun := Record(t.(op := Op.Start(t.op)), BackgroundBegan).(token := Valid);
    Record(begun, UploadIssued(Request(t.fileUrl, t.destinationUrl)))
  }

  /** The progress closure; the fraction itself is left out, the model passes
      on the counts it is computed from. */
  function OnProgress(t: UploadTask, completed: int, total: int): (r: UploadTask)
    ensures t.delegate.None? ==> r == t
    ensures t.delegate.Some? ==> r.op == Op.Emit(t.op, ProgressReported(completed, total))
    ensures r.(op := t.op) == t
  {
    Notify(t, ProgressReported(completed, total))
  }

  /** The response closure: one callback, a completion without result when
      there is no error and a failure otherwise. It neither completes the
      operation nor ends the background task. */
  function OnResponse(t: UploadTask, error: Option<int>): (r: UploadTask)
    ensures r.(op := t.op) == t
    ensures r.op.executing == t.op.executing && r.op.finished == t.op.finished && r.op.cancelled == t.op.cancelled
    ensures t.delegate.None? ==> r == t
    ensures t.delegate.Some? && error.None? ==> r.op.log == t.op.log + [Op.Event(CompletedWithResult(None))]
    ensures t.delegate.Some? && error.Some? ==> r.op.log == t.op.log + [Op.Event(FailedWithError(Transport(error.value)))]
  {
    match error
    case None => Notify(t, CompletedWithResult(None))
    case Some(code) => Notify(t, FailedWithError(Transport(code)))
  }

  /** `endBackgroundTask`: end the background task, whatever its state, and
      mark the identifier invalid. */
  function EndBackgroundTask(t: UploadTask): (r: UploadTask)
    requires t.token != NotBegun
    ensures r.token == Invalid
    ensures r.(token := t.token, op := t.op) == t
    ensures r.op == Op.Emit(t.op, BackgroundEnded(t.token))
  {
    Record(t, BackgroundEnded(t.token)).(token := Invalid)
  }

  /** The background task's expiration handler: ends the background task
      only if the identifier is still valid. */
  function OnExpiration(t: UploadTask): (r: UploadTask)
    requires t.token != NotBegun
    ensures r.token == Invalid
    ensures r.(token := t.token, op := t.op) == t
    ensures t.token == Invalid ==> r == t
    ensures t.token == Valid ==> r.op == Op.Emit(t.op, BackgroundEnded(Valid))
  {
    if t.token != Invalid then EndBackgroundTask(t) else t
  }

  /** `cancel`: detach the delegate, cancel the operation, abort the request
      if there is one, and drop it. */
  function Cancel(t: UploadTask): (r: UploadTask)
    ensures r.delegate.None? && r.request.None? && r.op.cancelled
    ensures r.(delegate := t.delegate, request := t.request, op := t.op) == t
    ensures r.op.executing == t.op.executing && r.op.finished == t.op.finished
    ensures t.request.Some? ==> r.op.log == t.op.log + [Op.Event(RequestCancelled)]
    ensures t.request.None? ==> r.op.log == t.op.log
  {
    var detached := t.(delegate := None, op := Op.Cancel(t.op));
    var aborted := if t.request.Some? then Record(detached, RequestCancelled) else detached;
    aborted.(request := None)
  }

  /** `start` as evidently intended: the upload's request handle is kept, so
      that `cancel` can abort it. */
  function StartKeepingRequest(t: UploadTask): (r: UploadTask)
    ensures r.request == Some(Request(t.fileUrl, t.destinationUrl))
    ensures r.(request := t.request) == Start(t)
  {
    Start(t).(request := Some(Request(t.fileUrl, t.destinationUrl)))
  }

  /** `start` as the base class's documentation asks for it: a cancelled
      task stops once the base class has marked it finished, with no
      background task and no upload. */
  function StartUnlessCancelled(t: UploadTask): (r: UploadTask)
    ensures Op.Extends(t.op, r.op) && r.op.cancelled == t.op.cancelled
    ensures t.op.cancelled ==> r.op.finished && r.op.executing == t.op.executing
    ensures t.op.cancelled ==> r.(op := t.op) == t
    ensures t.op.cancelled ==> forall i :: |t.op.log| <= i < |r.op.log| ==> !r.op.log[i].Event?
    ensures !t.op.cancelled ==> r == Start(t)
  {
    if t.op.cancelled then t.(op := Op.Start(t.op)) else Start(t)
  }

  /** The response closure as the base class's documentation asks for it: the
      background task is ended and the operation completed before the
      delegate hears the outcome. */
  function OnResponseCompleting(t: UploadTask, error: Option<int>): (r: UploadTask)
    requires t.token != NotBegun
    ensures r.token == Invalid && !r.op.executing && r.op.finished && r.op.cancelled == t.op.cancelled
    ensures Op.Extends(t.op, r.op) && |r.op.log| > |t.op.log|
    ensures r.op.log[|t.op.log|] == Op.Event(BackgroundEnded(t.token))
    ensures r.(token := t.token, op := t.op) == t
  {
    OnResponse(Finish(t), error)
  }

  /** End the background task, then complete the operation; no callback
      among them. */
  function Finish(t: UploadTask): (r: UploadTask)
    requires t.token != NotBegun
    ensures r.token == Invalid && !r.op.executing && r.op.finished && r.op.cancelled == t.op.cancelled
    ensures r.(token := t.token, op := t.op) == t
    ensures Op.Extends(t.op, r.op) && |r.op.log| > |t.op.log|
    ensures r.op.log[|t.op.log|] == Op.Event(BackgroundEnded(t.token))
    ensures forall i :: |t.op.log| <= i < |r.op.log| ==> !r.op.log[i].Event? || !IsCallback(r.op.log[i].event)
  {
    var ended := EndBackgroundTask(t);
    ended.(op := Op.CompleteOperation(ended.op))
  }
}

=== FILE: wrappers.dfy ===
/** Optional values and results, used for the source's optionals and thrown errors. */
module Wrappers {

  /** Swift's `T?`: either nothing or a value. */
  datatype Option<+T> = None | Some(value: T)

  /** The outcome of a call that may throw: a value, or the error it threw. */
  datatype Result<+T, +E> = Success(value: T) | Failure(error: E)
}
